=== FILE: README.md ===
# Article publishing backend: access rules, registration and accounts

A Dafny model of the authorization-aware content layer of a small Django REST
publishing backend. Users register and log in. Authors create, edit and delete
articles. Anonymous viewers read public articles, and any authenticated viewer
reads all of them.

The model covers:

- **Users** (`users.dfy`): the closed role set {follower, author, admin} and its
  stored strings, the account record, and the stored credential. The record has
  no field that could hold a plaintext password.
- **Store** (`store.dfy`): the user and article tables and the invariant the
  program keeps. That invariant is: unique emails, every article's author
  exists, titles of at most 255 characters, and `created_at <= updated_at <=`
  clock. Each article insert or save ticks the clock. Deleting a user cascades to exactly that
  user's articles.
- **ArticleSerializer** (`article_serializer.dfy`): the seven-field article
  view, with `author_first_name` read through the author. Also the writable
  fields (`author` is not one), the field checks (title and content non-blank,
  title at most 255, all three fields required outside a partial update), and
  the partial update.
- **Responses** (`responses.dfy`): status codes, the `{status, data}` envelope,
  and the framework's own answers. Messages are opaque constants.
- **Fields** (`fields.dfy`): the fields of both serializers and the reasons
  the framework's field step refuses one.
- **UserSerializer** (`user_serializer.dfy`): the registration field step
  (every field required and non-blank, the column bounds, the email format and
  its uniqueness), the six ordered checks of `validate` that run only after it,
  and the account a valid registration creates.
- **UserManager** (`user_manager.dfy`): `create_user` and `create_superuser`.
- **ArticleViews** (`article_views.dfy`): list, "my articles", create,
  retrieve, update and delete. A queryset is a `Scope`.
- **AuthViews** (`auth_views.dfy`): login, logout and register.
- **Scenarios** (`scenarios.dfy`): properties that span several requests.

The requester is an `Option<User>`, `None` when anonymous. On endpoints that
require authentication, a request without a principal gets the framework's 401
answer.

The detail endpoint is modelled as the code behaves:

- For a non-author, `get_queryset` returns a response object instead of a
  queryset. The framework's lookup on that object raises an error that none of
  the view's handlers name.
- For an author, a missing id or another user's id raises the framework's own
  not-found error, not the `Article.DoesNotExist` the view catches.
- So `put` and `delete` answer every request that does not own the article
  with their generic 500 envelope. Nothing is exposed and nothing changes.
- The ownership checks at `my_app/views/article.py:89` and `:97` can never
  fail. `GetObject`, `Update` and `Delete` prove this: no reply is ever 403 or
  404.

## Model

| member | source | states |
|---|---|---|
| Users.ParseRole | my_app/models/users.py:36-44 | a stored role string is accepted exactly when it is one of the three choices, and it reads back to a role with that name |
| Users.RoleNameRoundTrip | my_app/models/users.py:36-44 | every role's stored string reads back to that role, and distinct roles have distinct strings |
| Users.AuthorTestIsRoleTest | my_app/views/article.py:42 | the views' string test `user_role == 'author'` holds exactly for the author role |
| Users.CredentialFor | my_app/models/users.py:13 | a missing password leaves an unusable credential; a given one is stored only as its hash |
| Users.DisplayIdentifies | my_app/models/users.py:48-57 | with unique emails, a user's string form (its email) identifies the account |
| Store.SaveUser | my_app/models/users.py:48 | the unique constraint refuses an email already stored; otherwise exactly one account is added under a fresh key and the invariant holds |
| Store.InsertArticle | my_app/models/article.py:20-27 | a new article gets a fresh key and both timestamps equal the insert time, later than any earlier write; nothing else changes |
| Store.SaveArticle | my_app/models/article.py:24-27 | a save refreshes `updated_at` past its old value, keeps `created_at`, and leaves every other row alone |
| Store.RemoveArticle | my_app/views/article.py:119 | a delete removes exactly that key and leaves every other row as it was |
| Store.DeleteUser | my_app/models/article.py:15-19 | deleting a user removes exactly that account, leaving every other account unchanged, and exactly the articles they wrote, leaving every other article unchanged; the invariant is kept |
| Store.CascadeNeeded | my_app/models/article.py:15-19 | removing a user who still has articles, without the cascade, breaks the author foreign key |
| ArticleSerializer.ToView | my_app/serializers/articleSR.py:5-9 | `author_first_name` is the author's first name, and the view loses nothing else: with the author key put back it gives the stored row |
| ArticleSerializer.TitleProblem | my_app/models/article.py:5-8 | a supplied title passes exactly when it has 1 to 255 characters |
| ArticleSerializer.ContentProblem | my_app/models/article.py:9-11 | supplied content passes exactly when it is not blank |
| ArticleSerializer.Errors | my_app/models/article.py:5-14 | the list is empty exactly when the patch is acceptable and names each failing field exactly once, with its reason: not sent outside a partial update is required, an empty title or content is blank, a title over 255 characters is too long |
| ArticleSerializer.ApplyPatch | my_app/views/article.py:101-103 | a partial update replaces only the supplied fields and keeps the author and timestamps |
| ArticleSerializer.PatchIdempotent | my_app/views/article.py:101-103 | applying a patch twice equals applying it once; the empty patch changes nothing |
| UserSerializer.ValueErrors | my_app/models/users.py:47-48 | a present, non-blank value is refused exactly when it breaks its column's rule: `first_name` over 30 characters, an email already stored, over 254 characters or not an email address, a password over 128 characters; an email already stored is always reported as not unique |
| UserSerializer.RegistrationErrors | my_app/serializers/userSR.py:6-10 | the field step reports no error exactly when all four declared fields are given, non-blank and pass their validators; it names exactly the failing fields, a field not sent as required, and an email already stored as not unique |
| UserSerializer.Validate | my_app/serializers/userSR.py:12-41 | accepts exactly when all six conditions hold, and then returns the data unchanged |
| UserSerializer.ValidateReportsFirstFailure | my_app/serializers/userSR.py:18-39 | a refusal happens exactly when some condition fails, and reports the message of the first failing one in source order |
| UserSerializer.ValidatorShadowed | my_app/serializers/userSR.py:17-39 | after the field step passes, the checks for missing fields and for a registered email cannot fail, and with an email validator that demands an '@' neither can the format check; only a differing confirmation, a short password or one without a letter remains |
| UserSerializer.NewUser | my_app/serializers/userSR.py:43-46 | the new account has the given email, the given first name or '' when none was sent, the follower role, no flags, and only the hashed password |
| UserSerializer.Create | my_app/serializers/userSR.py:43-48 | saving adds exactly one follower account with that email under a fresh key, unless the email is taken |
| UserManager.CreateUser | my_app/models/users.py:7-15 | an empty or missing email raises and stores nothing; otherwise, unless the normalised email is already stored (which raises and stores nothing), exactly one account is added, with the normalised email, the given fields, column defaults elsewhere, and the hashed password |
| UserManager.SuperuserDefaults | my_app/models/users.py:19-21 | `is_staff`, `is_superuser` and the admin role are filled in only where the caller gave none |
| UserManager.CreateSuperuser | my_app/models/users.py:17-28 | an explicit false `is_staff` raises first, then an explicit false `is_superuser`; otherwise it is `create_user` with the defaults, so a superuser has both flags and, by default, the admin role |
| UserManager.CreatedRoleDefaults | my_app/models/users.py:36-49 | an account created without extras is a follower with no flags; a superuser created without extras is an admin with both flags; emails stay unique |
| UserManager.CreateUserTwice | my_app/models/users.py:48 | once an account is stored, a second `create_user` with an email that normalises to the same address raises on the unique constraint |
| ArticleViews.ListScope | my_app/views/article.py:15-21 | an article is listed exactly when the viewer is authenticated or the article is public |
| ArticleViews.OwnScope | my_app/views/article.py:39-46 | an article is in "my articles" exactly when the requester is an author and wrote it |
| ArticleViews.Select | my_app/views/article.py:24-25 | a queryset is evaluated to the keys of exactly the rows it selects, ascending, none repeated |
| ArticleViews.ViewsOfSelection | my_app/views/article.py:25 | serialising the selected rows gives faithful views naming exactly the selected keys |
| ArticleViews.ListArticles | my_app/views/article.py:23-31 | always 200 with a success envelope; an anonymous viewer gets exactly the public articles, an authenticated one every article, one faithful view each |
| ArticleViews.MyArticles | my_app/views/article.py:39-46 | an author gets exactly the articles they wrote; a follower or admin gets an empty list |
| ArticleViews.Create | my_app/views/article.py:48-60 | a non-author gets 403 and invalid data 400, and neither stores anything; otherwise exactly one article is added, with the requester as author and the given fields, answered 201 with its view |
| ArticleViews.CreateAsWritten | my_app/views/article.py:53-57 | as written, creation never stores anything; a valid request by an author ends in a server error |
| ArticleViews.CreateLosesAuthor | my_app/views/article.py:53-57 | on every valid request by an author, the code as written answers 500 and stores nothing, while the intended rule stores an article by the requester |
| ArticleViews.CreateIgnoresClientAuthor | my_app/views/article.py:53-54 | a client-supplied `author` or `author_first_name` does not change the reply, and the stored author is the requester |
| ArticleViews.DetailQuery | my_app/views/article.py:68-79 | an author's detail queryset is exactly their own rows; anyone else gets a response object instead of a queryset |
| ArticleViews.GetObject | my_app/views/article.py:81-92 | the lookup finds the row exactly when the requester is an author who owns it; its permission error is never raised |
| ArticleViews.Retrieve | my_app/views/article.py:63-92 | the owner reads the article with 200; for anyone else nothing is exposed |
| ArticleViews.Update | my_app/views/article.py:94-114 | succeeds exactly for the owning author with valid fields; writes only the supplied fields, keeps `created_at`, advances `updated_at`, leaves other articles alone; otherwise nothing changes; never 403 or 404 |
| ArticleViews.UpdateIgnoresReadOnly | my_app/serializers/articleSR.py:5-9 | what a client sends for `author`, `id`, `author_first_name` or the timestamps changes neither the reply of an update nor the stored rows |
| ArticleViews.Delete | my_app/views/article.py:116-129 | succeeds exactly for the owning author; removes exactly that article, answers 204 with a success envelope; otherwise nothing changes |
| ArticleViews.NoReachIntoOthers | my_app/views/article.py:72-73 | an author cannot read, change or delete another user's article through the detail endpoint |
| AuthViews.Login | my_app/views/auth.py:14-28 | a missing or empty field gives 400 with empty placeholders and leaves the session as it was; an authenticated account binds the session with 200; no account gives 401 and leaves the session |
| AuthViews.LoginFailureUninformative | my_app/views/auth.py:22-28 | an unknown email and a wrong password get the same 401 reply |
| AuthViews.LogOut | my_app/views/auth.py:34-36 | an authenticated logout leaves no session bound and answers 200 with a success envelope |
| AuthViews.Register | my_app/views/auth.py:42-49 | a registration failing the field step answers 400 with the field errors and adds nobody; one passing it but refused by `validate` answers 400 with that message and adds nobody; otherwise exactly one account is added and the answer is 201 with the email and no password |
| Scenarios.CreateThenRetrieve | my_app/views/article.py:48-60 | the article an author creates is the one that author reads back, field for field |
| Scenarios.PrivateArticleScenario | my_app/views/article.py:15-21 | a private article is not listed anonymously, another author cannot change or delete it, and its author reads it back |
| Scenarios.UpdateThenRetrieve | my_app/views/article.py:94-104 | after an update the owner reads back the patched article with the original `created_at` |
| Scenarios.DeleteThenRetrieve | my_app/views/article.py:116-129 | after the owner deletes an article it is gone: the owner reads nothing back, and a second delete fails and changes nothing |
| Scenarios.RegisterAgainRefused | my_app/views/auth.py:42-49 | any registration that was accepted is refused when sent again, with 400 and a single field error: the email is not unique |
| Scenarios.RegisterTwice | my_app/views/auth.py:42-49 | registering A, a@b.com, abc12345 succeeds with 201 and the email; a second registration of the same email gets 400 with the uniqueness error on `email` |

## Left out

- Password hashing, `normalize_email`, Python's `str.isalpha`, Django's email validator and `authenticate` are library code. They are function parameters (`hasher`, `normalize`, `isAlpha`, `isEmail`, `authenticate`). `AuthViews.Backend` is a reference backend used only to state that failed logins look alike.
- Basic authentication and the `IsAuthenticated`/`AllowAny` gates are represented by the `Option<User>` principal. The gate's 401 answer is the abstract `NotAuthenticated` detail.
- Session storage: a session is only the key of the account it is bound to.
- UserSerializer.ValidatorShadowed: the format check at `my_app/serializers/userSR.py:26` is shown dead only for an email validator that accepts no string without an '@', as Django's does; otherwise `isEmail` is arbitrary.
- UserSerializer.ValueErrors: the order of the errors within the `email` list is the model's own; the framework's order of its validators is not claimed. The validators that refuse NUL and surrogate characters are not modelled, and neither is whitespace trimming: a first name or password of only spaces is refused as blank by the program and accepted here.
- ArticleSerializer.TitleProblem: the framework's character validators on every text field are not modelled, so a title containing a NUL character (or a lone surrogate) is accepted here while the program refuses it with 400. Whitespace trimming is not modelled either: a title of only spaces is refused as blank by the program and accepted here.
- ArticleSerializer.ContentProblem: likewise for content, which the framework also checks as a text field; content containing a NUL character (or a lone surrogate) is accepted here while the program refuses it with 400. Whitespace trimming is not modelled either: content of only spaces is refused as blank by the program and accepted here.
- Article's string form (`__str__`, its title) is not modelled separately: nothing in the views uses it, and it is just the `title` field.
- Framework details of field parsing are not modelled: whitespace trimming, `null` values, and coercion of strings such as "true" for `public`.
- Extras of a type other than the one expected are not modelled. For example, a non-boolean `is_staff` or a `user_role` outside the three choices (choices are not enforced on save) cannot be represented.
- `is_active`, `last_login` and the other inherited account fields are not modelled. The column bounds of `first_name`, `email` and `password` are checked only by the registration field step; `create_user` does not check them, and the database's own column width is not modelled.
- The framework's `PATCH` handler on the detail endpoint is not modelled.
- Time is an abstract counter that ticks once per article insert or save, not a real date-time.
- Messages are opaque constants. Seven messages are never produced on any path: the one at `my_app/views/article.py:76` (its response only replaces the queryset), the not-found messages at 86 and 123, and the permission messages at 90, 99, 111 and 126 (the ownership checks they belong to cannot fail). Through `register`, the registration messages for missing fields and for a registered email are never produced either, because the field step refuses those requests first.
- ArticleViews.ListArticles: lists in ascending key order; the source sets no ordering, so any order of the same views is as faithful.
- ArticleViews.Retrieve: for a non-author the model answers a server error. The exact error the framework's lookup raises on a response object depends on the framework version. The model states only that nothing is exposed.
- Admin configuration (`my_app/admin.py`) and routing (`my_app/urls.py`) hold no logic.
- Concurrent requests: each operation is one atomic step on the store.

## Findings

| source | as written | input that shows it | evidently intended | confidence | as-written member | corrected member |
|---|---|---|---|---|---|---|
| my_app/views/article.py:53-57 | the requester's id is put under `author` in a copy of the request data, but the serializer declares no `author` field, so `save()` inserts a row without an author and the NOT NULL author column refuses it; no handler catches this, so the request ends in a server error | a POST to `/my_articles/` by an author with `title`, `content` and `public` all valid | the article is saved with the requester as author and answered with 201 | not executed; high | ArticleViews.CreateAsWritten (with ArticleViews.CreateLosesAuthor) | ArticleViews.Create |

=== FILE: article_serializer.dfy ===
/**
 * `my_app/serializers/articleSR.py`: the serialised shape of an article,
 * the fields a client may write, and the field checks the serializer
 * derives from the article columns.
 */
module ArticleSerializer {
  import opened Wrappers
  import opened Users
  import opened Store
  import opened Fields

  /**
   * The serialised article: exactly `id`, `title`, `content`, `public`,
   * `author_first_name`, `created_at` and `updated_at`. The author's key is
   * not part of it.
   */
  datatype ArticleView = ArticleView(
    id: nat,
    title: string,
    content: string,
    public: bool,
    authorFirstName: string,
    createdAt: nat,
    updatedAt: nat)

  /** The article exists and its author can be looked up for `author_first_name`. */
  predicate Viewable(db: Db, id: nat) {
    id in db.articles && db.articles[id].author in db.users
  }

  /** The stored article a view describes, given the author key the view leaves out. */
  function FromView(v: ArticleView, author: nat): Article {
    Article(v.title, v.content, v.public, author, v.createdAt, v.updatedAt)
  }

  /**
   * Serialises a stored article. `author_first_name` is read through the
   * author reference, and the view loses nothing else: with the author key
   * put back, it gives the stored row.
   */
  function ToView(db: Db, id: nat): (v: ArticleView)
    requires Viewable(db, id)
    ensures v.id == id
    ensures v.authorFirstName == db.users[db.articles[id].author].firstName
    ensures FromView(v, db.articles[id].author) == db.articles[id]
  {
    var a := db.articles[id];
    ArticleView(id, a.title, a.content, a.public, db.users[a.author].firstName, a.createdAt, a.updatedAt)
  }

  /** The views of the articles under `ids`, in that order. */
  function Views(db: Db, ids: seq<nat>): (vs: seq<ArticleView>)
    requires forall i :: 0 <= i < |ids| ==> Viewable(db, ids[i])
    ensures |vs| == |ids|
    ensures forall i :: 0 <= i < |ids| ==> vs[i] == ToView(db, ids[i])
  {
    seq(|ids|, i requires 0 <= i < |ids| => ToView(db, ids[i]))
  }

  /**
   * A request body for the article endpoints. Besides the writable fields a
   * client may send the read-only ones and an `author`; the serializer
   * declares no `author` field and `author_first_name`, `id` and the
   * timestamps are read-only.
   */
  datatype ArticleInput = ArticleInput(
    title: Option<string>,
    content: Option<string>,
    public: Option<bool>,
    id: Option<nat>,
    author: Option<nat>,
    authorFirstName: Option<string>,
    createdAt: Option<nat>,
    updatedAt: Option<nat>)

  /** The writable part of a request body. */
  datatype Patch = Patch(title: Option<string>, content: Option<string>, public: Option<bool>)

  /** Keeps the writable fields of a request body and drops the rest. */
  function Writable(i: ArticleInput): Patch {
    Patch(i.title, i.content, i.public)
  }

  /** What is wrong with a supplied title, if anything. */
  function TitleProblem(t: string): (r: Option<Problem>)
    ensures r.None? <==> 1 <= |t| <= MaxTitleLength
    ensures t == "" ==> r == Some(Blank)
    ensures |t| > MaxTitleLength ==> r == Some(TooLong)
  {
    if t == "" then Some(Blank)
    else if |t| > MaxTitleLength then Some(TooLong)
    else None
  }

  /** What is wrong with supplied content, if anything: it may be long but not blank. */
  function ContentProblem(c: string): (r: Option<Problem>)
    ensures r.None? <==> c != ""
    ensures c == "" ==> r == Some(Blank)
  {
    if c == "" then Some(Blank) else None
  }

  /**
   * Whether one field of a patch passes: a supplied value must be well
   * formed, and outside a partial update the field must be supplied.
   */
  predicate FieldOk(p: Patch, partial: bool, f: Field) {
    match f
    case TitleField => if p.title.Some? then 1 <= |p.title.value| <= MaxTitleLength else partial
    case ContentField => if p.content.Some? then p.content.value != "" else partial
    case PublicField => p.public.Some? || partial
    case _ => true   // a registration field is no concern of this serializer
  }

  /** Every field passes. */
  predicate Acceptable(p: Patch, partial: bool) {
    FieldOk(p, partial, TitleField) && FieldOk(p, partial, ContentField) && FieldOk(p, partial, PublicField)
  }

  /** The error of one field, if any. */
  function FieldCheck(f: Field, supplied: bool, problem: Option<Problem>, partial: bool): (errs: seq<FieldError>)
    ensures |errs| <= 1
    ensures forall e :: e in errs ==> e.field == f
  {
    if !supplied then (if partial then [] else [FieldError(f, Required)])
    else if problem.Some? then [FieldError(f, problem.value)]
    else []
  }

  /**
   * The serializer's field errors for a patch, in field order. The list is
   * empty exactly when the patch is acceptable, it names exactly the fields
   * that fail, and it names each of them once, with its reason: a field not
   * sent outside a partial update is required, an empty title or content is
   * blank, and a title over the column bound is too long.
   */
  function Errors(p: Patch, partial: bool): (errs: seq<FieldError>)
    ensures errs == [] <==> Acceptable(p, partial)
    ensures forall f :: f in ErrorFields(errs) <==> !FieldOk(p, partial, f)
    ensures forall i, j :: 0 <= i < j < |errs| ==> errs[i].field != errs[j].field
    ensures |errs| <= 3
    ensures !partial && p.title.None? ==> FieldError(TitleField, Required) in errs
    ensures !partial && p.content.None? ==> FieldError(ContentField, Required) in errs
    ensures !partial && p.public.None? ==> FieldError(PublicField, Required) in errs
    ensures p.title == Some("") ==> FieldError(TitleField, Blank) in errs
    ensures p.title.Some? && |p.title.value| > MaxTitleLength ==> FieldError(TitleField, TooLong) in errs
    ensures p.content == Some("") ==> FieldError(ContentField, Blank) in errs
  {
    var t := FieldCheck(TitleField, p.title.Some?, if p.title.Some? then TitleProblem(p.title.value) else None, partial);
    var c := FieldCheck(ContentField, p.content.Some?, if p.content.Some? then ContentProblem(p.content.value) else None, partial);
    var b := FieldCheck(PublicField, p.public.Some?, None, partial);
    var errs := t + c + b;
    assert ErrorFields(errs) == ErrorFields(t) + ErrorFields(c) + ErrorFields(b);
    forall i, j | 0 <= i < j < |errs|
      ensures errs[i].field != errs[j].field
    {
      if i < |t| {
        assert errs[i] == t[i] && errs[j] !in t;
      } else {
        assert errs[i] == c[i - |t|] && errs[j] == b[j - |t| - |c|];
      }
    }
    errs
  }

  /**
   * A partial update: every supplied field replaces the stored one, every
   * other field, the author and both timestamps stay as they were.
   */
  function ApplyPatch(a: Article, p: Patch): (r: Article)
    ensures r.author == a.author && r.createdAt == a.createdAt && r.updatedAt == a.updatedAt
    ensures p.title.None? ==> r.title == a.title
    ensures p.content.None? ==> r.content == a.content
    ensures p.public.None? ==> r.public == a.public
    ensures p.title.Some? ==> r.title == p.title.value
    ensures p.content.Some? ==> r.content == p.content.value
    ensures p.public.Some? ==> r.public == p.public.value
  {
    a.(title := p.title.GetOr(a.title), content := p.content.GetOr(a.content), public := p.public.GetOr(a.public))
  }

  /** Applying the same patch twice is applying it once; the empty patch changes nothing. */
  lemma PatchIdempotent(a: Article, p: Patch)
    ensures ApplyPatch(ApplyPatch(a, p), p) == ApplyPatch(a, p)
    ensures ApplyPatch(a, Patch(None, None, None)) == a
  {
  }
}

=== FILE: article_views.dfy ===
/**
 * `my_app/views/article.py`: the three article endpoints. Every request
 * comes with the principal the authentication layer produced (`None` for
 * an anonymous request); the endpoints that require authentication answer
 * 401 without one. A queryset is modelled as a `Scope`, the rows it selects.
 */
module ArticleViews {
  import opened Wrappers
  import opened Users
  import opened Store
  import opened ArticleSerializer
  import opened Responses

  /** The rows a queryset selects. */
  datatype Scope = Everything | PublicOnly | AuthoredBy(author: nat) | NoRows

  predicate InScope(s: Scope, a: Article) {
    match s
    case Everything => true
    case PublicOnly => a.public
    case AuthoredBy(author) => a.author == author
    case NoRows => false
  }

  /**
   * `ArticleListView.get_queryset`: readability depends on authentication
   * alone. An anonymous viewer reads the public articles; any
   * authenticated viewer reads every article, whatever the role.
   */
  function ListScope(viewer: Option<User>): (s: Scope)
    ensures forall a :: InScope(s, a) <==> viewer.Some? || a.public
  {
    if viewer.Some? then Everything else PublicOnly
  }

  /**
   * `ArticleListCreateAPIView.get_queryset`: an author's own articles; a
   * follower or an admin has none.
   */
  function OwnScope(u: User): (s: Scope)
    ensures forall a :: InScope(s, a) <==> u.role == Author && a.author == u.id
  {
    if u.role == Author then AuthoredBy(u.id) else NoRows
  }

  /** Strictly ascending keys: no row is listed twice. */
  predicate Increasing(ids: seq<nat>) {
    forall i, j :: 0 <= i < j < |ids| ==> ids[i] < ids[j]
  }

  /** The keys of the rows a scope selects, in ascending order. */
  method Select(db: Db, s: Scope) returns (ids: seq<nat>)
    requires forall k :: k in db.articles ==> k < db.nextArticleId
    ensures Increasing(ids)
    ensures forall k :: k in ids <==> k in db.articles && InScope(s, db.articles[k])
  {
    ids := [];
    var k := 0;
    while k < db.nextArticleId
      invariant k <= db.nextArticleId
      invariant Increasing(ids)
      invariant forall i :: 0 <= i < |ids| ==> ids[i] < k
      invariant forall j :: j in ids <==> j < k && j in db.articles && InScope(s, db.articles[j])
    {
      if k in db.articles && InScope(s, db.articles[k]) {
        ids := ids + [k];
      }
      k := k + 1;
    }
  }

  /** The article keys a list of views names. */
  function ViewIds(vs: seq<ArticleView>): set<nat> {
    set v | v in vs :: v.id
  }

  /** Every view is the current serialisation of the stored article it names, and none repeats. */
  predicate Faithful(db: Db, vs: seq<ArticleView>) {
    && (forall i :: 0 <= i < |vs| ==> Viewable(db, vs[i].id) && vs[i] == ToView(db, vs[i].id))
    && (forall i, j :: 0 <= i < j < |vs| ==> vs[i].id < vs[j].id)
  }

  /** The views of the selected keys are faithful and name exactly those keys. */
  lemma ViewsOfSelection(db: Db, ids: seq<nat>)
    requires Valid(db)
    requires Increasing(ids) && forall k :: k in ids ==> k in db.articles
    ensures Faithful(db, Views(db, ids))
    ensures ViewIds(Views(db, ids)) == set k | k in ids
  {
  }

  /**
   * `ArticleListView.list`: always a 200 success envelope whose `articles`
   * hold one faithful view per readable article: the public ones for an
   * anonymous viewer, all of them for an authenticated one.
   */
  method ListArticles(db: Db, viewer: Option<User>) returns (resp: Response)
    requires Valid(db)
    ensures resp.code == Ok200 && IsSuccess(resp) && resp.body.env.data.ArticleList?
    ensures Faithful(db, Exposed(resp))
    ensures viewer.None? ==> ViewIds(Exposed(resp)) == set k | k in db.articles && db.articles[k].public
    ensures viewer.Some? ==> ViewIds(Exposed(resp)) == db.articles.Keys
  {
    var ids := Select(db, ListScope(viewer));
    ViewsOfSelection(db, ids);
    resp := SuccessResponse(Ok200, ArticleList(Views(db, ids)));
  }

  /**
   * `GET /my_articles/`: the framework's list over `OwnScope`, answered as
   * a plain list. An author gets exactly the articles they wrote; any
   * other role gets an empty list (`none()`, which reads no rows).
   */
  method MyArticles(db: Db, principal: Option<User>) returns (resp: Response)
    requires Valid(db)
    ensures principal.None? ==> resp == NotAuthenticatedResponse
    ensures principal.Some? ==> resp.code == Ok200 && resp.body.ViewList? && Faithful(db, Exposed(resp))
    ensures principal.Some? && principal.value.role == Author ==>
              ViewIds(Exposed(resp)) == set k | k in db.articles && db.articles[k].author == principal.value.id
    ensures principal.Some? && principal.value.role != Author ==> Exposed(resp) == []
  {
    if principal.None? {
      return NotAuthenticatedResponse;
    }
    var scope := OwnScope(principal.value);
    var ids: seq<nat> := [];
    if scope != NoRows {
      ids := Select(db, scope);
    }
    ViewsOfSelection(db, ids);
    resp := Response(Ok200, ViewList(Views(db, ids)));
  }

  /** The request may create an article: an authenticated author. */
  predicate MayCreate(principal: Option<User>) {
    principal.Some? && principal.value.role == Author
  }

  /**
   * `ArticleListCreateAPIView.post`, as it is evidently meant to behave:
   * the saved article's author is the requester. A non-author gets 403 and
   * invalid data 400, and neither stores anything; otherwise exactly one
   * article is added under a fresh key and answered with 201. A client
   * value for `author` plays no part.
   *
   * The source sets `data['author']` on the request copy, but `author` is
   * not a serializer field, so that value never reaches the saved object;
   * `CreateAsWritten` models what the code does.
   */
  function Create(db: Db, principal: Option<User>, input: ArticleInput): (r: Reply)
    requires Valid(db)
    requires principal.Some? ==> Principal(db, principal.value)
    ensures Valid(r.db)
    ensures principal.None? ==> r == Reply(db, NotAuthenticatedResponse)
    ensures principal.Some? && principal.value.role != Author ==>
              r == Reply(db, FailResponse(Forbidden403, Message(NoCreateRight)))
    ensures MayCreate(principal) && !Acceptable(Writable(input), false) ==>
              r == Reply(db, FailResponse(BadRequest400, FieldErrors(Errors(Writable(input), false))))
    ensures r.resp.code == Created201 <==> MayCreate(principal) && Acceptable(Writable(input), false)
    ensures r.resp.code != Created201 ==> r.db == db
    ensures r.resp.code == Created201 ==>
              && db.nextArticleId !in db.articles
              && r.db.articles.Keys == db.articles.Keys + {db.nextArticleId}
              && (forall k :: k in db.articles ==> r.db.articles[k] == db.articles[k])
              && r.db.users == db.users
    ensures r.resp.code == Created201 ==>
              var a := r.db.articles[db.nextArticleId];
              && a.author == principal.value.id
              && Some(a.title) == input.title && Some(a.content) == input.content && Some(a.public) == input.public
              && a.createdAt == a.updatedAt && a.createdAt > db.clock
              && r.resp == SuccessResponse(Created201, OneArticle(ToView(r.db, db.nextArticleId)))
  {
    match principal
    case None => Reply(db, NotAuthenticatedResponse)
    case Some(u) =>
      if u.role != Author then Reply(db, FailResponse(Forbidden403, Message(NoCreateRight)))
      else
        var p := Writable(input);
        var errs := Errors(p, false);
        if errs != [] then Reply(db, FailResponse(BadRequest400, FieldErrors(errs)))
        else
          var saved := InsertArticle(db, p.title.value, p.content.value, p.public.value, u.id);
          Reply(saved.db, SuccessResponse(Created201, OneArticle(ToView(saved.db, saved.row))))
  }

  /**
   * `ArticleListCreateAPIView.post` as written. The serializer drops the
   * `author` the view put in the request copy, so the row it inserts has no
   * author and the NOT NULL constraint on the author column refuses it; no
   * handler catches that error. A valid request by an author therefore
   * never stores an article.
   */
  function CreateAsWritten(db: Db, principal: Option<User>, input: ArticleInput): (r: Reply)
    requires Valid(db)
    ensures r.db == db
    ensures r.resp.code == ServerError500 <==> MayCreate(principal) && Acceptable(Writable(input), false)
    ensures !(MayCreate(principal) && Acceptable(Writable(input), false)) ==>
              r.resp == (if principal.None? then NotAuthenticatedResponse
                         else if principal.value.role != Author then FailResponse(Forbidden403, Message(NoCreateRight))
                         else FailResponse(BadRequest400, FieldErrors(Errors(Writable(input), false))))
  {
    match principal
    case None => Reply(db, NotAuthenticatedResponse)
    case Some(u) =>
      if u.role != Author then Reply(db, FailResponse(Forbidden403, Message(NoCreateRight)))
      else
        var errs := Errors(Writable(input), false);
        if errs != [] then Reply(db, FailResponse(BadRequest400, FieldErrors(errs)))
        else Reply(db, Response(ServerError500, Crash))
  }

  /**
   * The create path as written and as intended differ on every valid
   * request by an author: as written it answers 500 and stores nothing,
   * while the intended version stores an article by that author.
   */
  lemma CreateLosesAuthor(db: Db, u: User, input: ArticleInput)
    requires Valid(db) && Principal(db, u) && u.role == Author
    requires Acceptable(Writable(input), false)
    ensures CreateAsWritten(db, Some(u), input) == Reply(db, Response(ServerError500, Crash))
    ensures Create(db, Some(u), input).resp.code == Created201
    ensures Create(db, Some(u), input).db.articles[db.nextArticleId].author == u.id
  {
  }

  /**
   * Anti-spoofing: whatever `author` (or `author_first_name`, `id`,
   * timestamps) the client sends, creation gives the same reply, and the
   * stored author is the requester.
   */
  lemma CreateIgnoresClientAuthor(db: Db, u: User, input: ArticleInput, spoof: nat, name: string)
    requires Valid(db) && Principal(db, u)
    ensures Create(db, Some(u), input.(author := Some(spoof), authorFirstName := Some(name)))
         == Create(db, Some(u), input)
    ensures Create(db, Some(u), input).resp.code == Created201 ==>
              Create(db, Some(u), input).db.articles[db.nextArticleId].author == u.id
  {
  }

  /**
   * What the detail view's `get_queryset` hands the lookup: the requester's
   * own rows for an author; for anyone else the 400 response it builds
   * when catching its own permission error, in place of a queryset.
   */
  datatype DetailQueryset = Rows(scope: Scope) | ResponseObject

  function DetailQuery(u: User): (q: DetailQueryset)
    ensures q.Rows? <==> u.role == Author
    ensures q.Rows? ==> forall a :: InScope(q.scope, a) <==> a.author == u.id
  {
    if u.role == Author then Rows(AuthoredBy(u.id)) else ResponseObject
  }

  /**
   * The exceptions the detail lookup can raise: the permission error of its
   * ownership check, the framework's not-found error (not the
   * `Article.DoesNotExist` the view catches), and the failure of the
   * framework's lookup when handed a response object instead of a queryset.
   */
  datatype LookupError = PermissionError(msg: Msg) | Http404 | LookupCrash

  datatype Lookup = Found(article: Article) | Threw(error: LookupError)

  /** The requester is an author and the stored article under `id` is theirs. */
  predicate Owns(db: Db, principal: Option<User>, id: nat) {
    && principal.Some? && principal.value.role == Author
    && id in db.articles && db.articles[id].author == principal.value.id
  }

  /**
   * `ArticleRetrieveUpdateDestroyAPIView.get_object`. The lookup finds a row
   * exactly when the requester owns it. Because an author's lookup only
   * sees their own rows and anyone else's lookup fails first, the
   * ownership check after it never raises.
   */
  function GetObject(db: Db, u: User, id: nat): (r: Lookup)
    ensures r.Found? <==> Owns(db, Some(u), id)
    ensures r.Found? ==> r.article == db.articles[id]
    ensures r.Threw? ==> !r.error.PermissionError?
    ensures r.Threw? ==> (r.error == LookupCrash <==> u.role != Author)
  {
    match DetailQuery(u)
    case ResponseObject => Threw(LookupCrash)
    case Rows(s) =>
      if id !in db.articles || !InScope(s, db.articles[id]) then Threw(Http404)
      else
        var obj := db.articles[id];
        if u.role != Author || u.id != obj.author then Threw(PermissionError(NoEditRight))
        else Found(obj)
  }

  /**
   * `GET /my_articles/{id}/`, handled by the framework over `get_object`:
   * the owner gets the plain view with 200. Nobody else sees the article:
   * an author gets the framework's 404 and a non-author a server error.
   */
  function Retrieve(db: Db, principal: Option<User>, id: nat): (resp: Response)
    requires Valid(db)
    ensures principal.None? ==> resp == NotAuthenticatedResponse
    ensures resp.code == Ok200 <==> Owns(db, principal, id)
    ensures Owns(db, principal, id) ==> resp.body == View(ToView(db, id))
    ensures !Owns(db, principal, id) ==> Exposed(resp) == []
  {
    match principal
    case None => NotAuthenticatedResponse
    case Some(u) =>
      match GetObject(db, u, id)
      case Found(_) => Response(Ok200, View(ToView(db, id)))
      case Threw(PermissionError(_)) => Response(Forbidden403, FrameworkDetail(PermissionDenied))
      case Threw(Http404) => Response(NotFound404, FrameworkDetail(NotFound))
      case Threw(LookupCrash) => Response(ServerError500, Crash)
  }

  /**
   * `ArticleRetrieveUpdateDestroyAPIView.put`. It succeeds exactly when the
   * requester owns the article and the supplied fields are valid; then it
   * writes only the supplied fields, keeps the author and `created_at`,
   * refreshes `updated_at`, leaves every other article alone and answers
   * 200 with the new view. Invalid data gets 400 and changes nothing. A
   * request that does not own the article changes nothing and sees
   * nothing: the lookup's errors are not the ones `put` catches, so it
   * answers with its generic 500 envelope, and neither 403 branch is ever
   * taken.
   */
  function Update(db: Db, principal: Option<User>, id: nat, input: ArticleInput): (r: Reply)
    requires Valid(db)
    ensures Valid(r.db)
    ensures principal.None? ==> r == Reply(db, NotAuthenticatedResponse)
    ensures IsSuccess(r.resp) <==> Owns(db, principal, id) && Acceptable(Writable(input), true)
    ensures !IsSuccess(r.resp) ==> r.db == db
    ensures principal.Some? && !Owns(db, principal, id) ==>
              r.resp == FailResponse(ServerError500, Message(Internal))
    ensures Owns(db, principal, id) && !Acceptable(Writable(input), true) ==>
              r.resp == FailResponse(BadRequest400, FieldErrors(Errors(Writable(input), true)))
    ensures r.resp.code != Forbidden403 && r.resp.code != NotFound404
    ensures IsSuccess(r.resp) ==>
              && r.db.users == db.users
              && r.db.articles.Keys == db.articles.Keys
              && (forall k :: k in db.articles && k != id ==> r.db.articles[k] == db.articles[k])
              && r.db.articles[id] == ApplyPatch(db.articles[id], Writable(input)).(updatedAt := r.db.articles[id].updatedAt)
              && r.db.articles[id].createdAt == db.articles[id].createdAt
              && r.db.articles[id].updatedAt > db.articles[id].updatedAt
              && r.resp == SuccessResponse(Ok200, OneArticle(ToView(r.db, id)))
  {
    match principal
    case None => Reply(db, NotAuthenticatedResponse)
    case Some(u) =>
      match GetObject(db, u, id)
      case Threw(PermissionError(m)) => Reply(db, FailResponse(Forbidden403, Message(m)))
      case Threw(_) => Reply(db, FailResponse(ServerError500, Message(Internal)))
      case Found(a) =>
        if u.role != Author || u.id != a.author then
          Reply(db, FailResponse(Forbidden403, Message(NoEditRightOnPut)))
        else
          var p := Writable(input);
          var errs := Errors(p, true);
          if errs != [] then Reply(db, FailResponse(BadRequest400, FieldErrors(errs)))
          else
            var db' := SaveArticle(db, id, ApplyPatch(a, p));
            Reply(db', SuccessResponse(Ok200, OneArticle(ToView(db', id))))
  }

  /**
   * Values a client sends for `author`, or for the read-only `id`,
   * `author_first_name` and timestamps, change nothing an update does:
   * neither the reply nor the stored rows.
   */
  lemma UpdateIgnoresReadOnly(db: Db, principal: Option<User>, id: nat, input: ArticleInput,
                              id': Option<nat>, author: Option<nat>, name: Option<string>,
                              created: Option<nat>, updated: Option<nat>)
    requires Valid(db)
    ensures Update(db, principal, id, input.(id := id', author := author, authorFirstName := name,
                                             createdAt := created, updatedAt := updated))
         == Update(db, principal, id, input)
  {
  }

  /**
   * `ArticleRetrieveUpdateDestroyAPIView.delete`. The owner's request
   * removes exactly that article, leaves every other row as it was, and is
   * answered 204 with a success envelope. Any other request removes
   * nothing; as with `put` it gets the generic 500 envelope, never 403 or
   * 404.
   */
  function Delete(db: Db, principal: Option<User>, id: nat): (r: Reply)
    requires Valid(db)
    ensures Valid(r.db)
    ensures principal.None? ==> r == Reply(db, NotAuthenticatedResponse)
    ensures IsSuccess(r.resp) <==> Owns(db, principal, id)
    ensures Owns(db, principal, id) ==>
              && r.resp == SuccessResponse(NoContent204, Message(Deleted))
              && r.db.articles.Keys == db.articles.Keys - {id}
              && (forall k :: k in r.db.articles ==> r.db.articles[k] == db.articles[k])
              && r.db.users == db.users
    ensures !Owns(db, principal, id) ==> r.db == db
    ensures principal.Some? && !Owns(db, principal, id) ==>
              r.resp == FailResponse(ServerError500, Message(Internal))
  {
    match principal
    case None => Reply(db, NotAuthenticatedResponse)
    case Some(u) =>
      match GetObject(db, u, id)
      case Found(_) => Reply(RemoveArticle(db, id), SuccessResponse(NoContent204, Message(Deleted)))
      case Threw(PermissionError(_)) => Reply(db, FailResponse(Forbidden403, Message(NoDeleteRight)))
      case Threw(_) => Reply(db, FailResponse(ServerError500, Message(Internal)))
  }

  /**
   * An author can never reach another user's article through the detail
   * endpoint: reading it exposes nothing, and updating or deleting it
   * changes nothing and does not succeed.
   */
  lemma NoReachIntoOthers(db: Db, u: User, id: nat, input: ArticleInput)
    requires Valid(db) && id in db.articles && db.articles[id].author != u.id
    ensures Exposed(Retrieve(db, Some(u), id)) == []
    ensures Update(db, Some(u), id, input).db == db && !IsSuccess(Update(db, Some(u), id, input).resp)
    ensures Delete(db, Some(u), id).db == db && !IsSuccess(Delete(db, Some(u), id).resp)
  {
  }
}

=== FILE: auth_views.dfy ===
/**
 * `my_app/views/auth.py`: login, logout and registration. The session is
 * the key of the account it is bound to, or `None`. Django's
 * `authenticate` is a parameter: any function from an email and a password
 * to an account or nothing.
 */
module AuthViews {
  import opened Wrappers
  import opened Users
  import opened Store
  import opened Responses
  import opened UserSerializer

  /** A session and the response of a login or logout. */
  datatype AuthReply = AuthReply(session: Option<nat>, resp: Response)

  /** The answer to a login without email or password, with empty placeholders under `input`. */
  const MissingCredentialsResponse: Response :=
    Response(BadRequest400, Enveloped(Envelope(Fail, Message(CredentialsMissing), Some(Echo("", "")))))

  /**
   * `custom_login`. A missing or empty email or password gets 400 with
   * empty placeholders and leaves the session alone. Otherwise the
   * credentials go to `authenticate`: an account binds the session to it
   * with 200, nothing gets 401 and leaves the session alone.
   */
  function Login(session: Option<nat>, email: Option<string>, password: Option<string>,
                 authenticate: (string, string) -> Option<User>): (r: AuthReply)
    ensures !Given(email) || !Given(password) ==> r == AuthReply(session, MissingCredentialsResponse)
    ensures r.resp.code == Ok200 <==>
              Given(email) && Given(password) && authenticate(email.value, password.value).Some?
    ensures r.resp.code == Ok200 ==>
              r.session == Some(authenticate(email.value, password.value).value.id) && IsSuccess(r.resp)
    ensures r.resp.code != Ok200 ==> r.session == session && !IsSuccess(r.resp)
    ensures Given(email) && Given(password) && authenticate(email.value, password.value).None? ==>
              r.resp == FailResponse(Unauthorized401, Message(BadCredentials))
  {
    if !Given(email) || !Given(password) then AuthReply(session, MissingCredentialsResponse)
    else
      match authenticate(email.value, password.value)
      case Some(u) => AuthReply(Some(u.id), SuccessResponse(Ok200, Message(LoginOk)))
      case None => AuthReply(session, FailResponse(Unauthorized401, Message(BadCredentials)))
  }

  /**
   * A reference for `authenticate` over a directory: the account with that
   * email whose stored credential is the hash of that password, if any.
   */
  ghost function Backend(users: map<nat, User>, hasher: string -> string): (string, string) -> Option<User> {
    (e: string, p: string) =>
      if exists k :: k in users && users[k].email == e && users[k].credential == Hashed(hasher(p)) then
        var k :| k in users && users[k].email == e && users[k].credential == Hashed(hasher(p));
        Some(users[k])
      else None
  }

  /**
   * A failed login says nothing about why: with the reference backend an
   * unknown email and a wrong password both get the same 401, and the
   * session stays as it was.
   */
  lemma LoginFailureUninformative(db: Db, session: Option<nat>, hasher: string -> string,
                                  email: string, password: string, email': string, password': string)
    requires Valid(db)
    requires email != "" && password != ""
    requires !EmailTaken(db.users, email)
    requires email' != "" && password' != ""
    requires forall k :: k in db.users && db.users[k].email == email' ==>
               db.users[k].credential != Hashed(hasher(password'))
    ensures Login(session, Some(email), Some(password), Backend(db.users, hasher))
         == AuthReply(session, FailResponse(Unauthorized401, Message(BadCredentials)))
    ensures Login(session, Some(email'), Some(password'), Backend(db.users, hasher))
         == Login(session, Some(email), Some(password), Backend(db.users, hasher))
  {
  }

  /**
   * `log_out`, behind the authentication gate: an authenticated request
   * always ends with no session bound and a 200 success envelope.
   */
  function LogOut(principal: Option<User>, session: Option<nat>): (r: AuthReply)
    ensures principal.None? ==> r == AuthReply(session, NotAuthenticatedResponse)
    ensures principal.Some? ==> r.session.None? && r.resp.code == Ok200 && IsSuccess(r.resp)
  {
    if principal.None? then AuthReply(session, NotAuthenticatedResponse)
    else AuthReply(None, SuccessResponse(Ok200, Message(LogoutOk)))
  }

  /**
   * `register`. The field step runs first: a registration with a missing,
   * blank, overlong or malformed field, or with an email already stored,
   * gets 400 with the field errors and adds nobody, and `validate` does not
   * run. One that passes goes to `validate`: a refusal gets 400 with its
   * message and adds nobody; an acceptance adds exactly one follower account
   * with that email and answers 201 with the email (and never the password).
   */
  function Register(db: Db, d: Registration, isAlpha: char -> bool, isEmail: string -> bool,
                    hasher: string -> string): (r: Reply)
    requires Valid(db)
    ensures Valid(r.db)
    ensures IsSuccess(r.resp) <==> FieldsPass(d, db.users, isEmail) && Validate(d, db.users, isAlpha).Ok?
    ensures !FieldsPass(d, db.users, isEmail) ==>
              r == Reply(db, FailResponse(BadRequest400, ErrorMap(RegistrationErrors(d, db.users, isEmail))))
    ensures FieldsPass(d, db.users, isEmail) && Validate(d, db.users, isAlpha).Err? ==>
              r == Reply(db, FailResponse(BadRequest400, Rejected(Validate(d, db.users, isAlpha).error)))
    ensures IsSuccess(r.resp) ==>
              && d.email.Some? && d.password.Some?
              && r.resp == SuccessResponse(Created201, Registered(RegistrationOk, d.email.value))
              && db.nextUserId !in db.users
              && r.db.users == db.users[db.nextUserId := NewUser(d, hasher).(id := db.nextUserId)]
              && r.db.articles == db.articles
  {
    var errs := RegistrationErrors(d, db.users, isEmail);
    if errs != [] then Reply(db, FailResponse(BadRequest400, ErrorMap(errs)))
    else
      match Validate(d, db.users, isAlpha)
      case Err(m) => Reply(db, FailResponse(BadRequest400, Rejected(m)))
      case Ok(v) =>
        assert Condition(0, d, db.users, isAlpha) && Condition(5, d, db.users, isAlpha);
        match UserSerializer.Create(db, v, hasher)
        case None => Reply(db, Response(ServerError500, Crash))
        case Some(saved) => Reply(saved.db, SuccessResponse(Created201, Registered(RegistrationOk, v.email.value)))
  }
}

=== FILE: fields.dfy ===
/**
 * The vocabulary of the serializers' field step, shared by the article and
 * the registration serializer: the fields a client can send, and why the
 * framework refuses one before any `validate` method runs.
 */
module Fields {
  /** The fields of both serializers, each in declaration order. */
  datatype Field =
    | TitleField | ContentField | PublicField                               // the article serializer
    | FirstNameField | EmailField | PasswordField | ConfirmPasswordField    // the registration serializer

  /**
   * Why a field was refused: absent when required, blank, longer than its
   * column, not an email address, or already stored in a unique column.
   */
  datatype Problem = Required | Blank | TooLong | Invalid | NotUnique

  datatype FieldError = FieldError(field: Field, problem: Problem)

  /** The fields an error list names. */
  function ErrorFields(errs: seq<FieldError>): set<Field> {
    set e | e in errs :: e.field
  }
}

=== FILE: responses.dfy ===
/**
 * What the views answer: an HTTP status code and a body, usually the
 * `{status, data}` envelope. The human-readable messages are opaque
 * constants, one per message the views and validators can produce.
 */
module Responses {
  import opened Wrappers
  import opened Store
  import opened ArticleSerializer
  import opened Fields

  const Ok200: nat := 200
  const Created201: nat := 201
  const NoContent204: nat := 204
  const BadRequest400: nat := 400
  const Unauthorized401: nat := 401
  const Forbidden403: nat := 403
  const NotFound404: nat := 404
  const ServerError500: nat := 500

  /** The messages of the views and of the registration validator. */
  datatype Msg =
    | NoCreateRight        // creating an article without the author role
    | NoEditRight          // raised by the detail lookup's ownership check
    | NoEditRightOnPut     // the update's own ownership check
    | NoDeleteRight        // answer to a permission error on delete
    | Deleted              // a successful delete
    | Internal             // the generic "error: ..." answer to any other exception
    | CredentialsMissing   // login without email or password
    | LoginOk
    | BadCredentials
    | LogoutOk
    | RegistrationOk
    | FieldsRequired       // registration without email, password or confirmation
    | PasswordsDiffer
    | BadEmailFormat
    | PasswordTooShort
    | PasswordNeedsLetter
    | EmailAlreadyRegistered

  datatype Status = Success | Fail

  /** The `data` member of an envelope. */
  datatype Data =
    | Message(msg: Msg)
    | ArticleList(articles: seq<ArticleView>)
    | OneArticle(article: ArticleView)
    | FieldErrors(errors: seq<FieldError>)      // the article views: the field errors under the key `errors`
    | ErrorMap(errors: seq<FieldError>)         // `register`: the field errors are the whole `data`
    | Rejected(reason: Msg)                     // a validator error, under the key `message`
    | Registered(msg: Msg, email: string)

  /** The `input` member the login answer adds when credentials are missing. */
  datatype Echo = Echo(email: string, password: string)

  datatype Envelope = Envelope(status: Status, data: Data, input: Option<Echo>)

  /** The framework's own `{detail}` answers, outside the envelope. */
  datatype Detail = NotAuthenticated | NotFound | PermissionDenied

  datatype Body =
    | Enveloped(env: Envelope)
    | ViewList(views: seq<ArticleView>)   // the framework's plain list answer
    | View(view: ArticleView)             // the framework's plain retrieve answer
    | FrameworkDetail(detail: Detail)
    | Crash                               // an exception no handler catches

  datatype Response = Response(code: nat, body: Body)

  /** A response that also carries the database as the request left it. */
  datatype Reply = Reply(db: Db, resp: Response)

  function SuccessResponse(code: nat, d: Data): Response {
    Response(code, Enveloped(Envelope(Success, d, None)))
  }

  function FailResponse(code: nat, d: Data): Response {
    Response(code, Enveloped(Envelope(Fail, d, None)))
  }

  /** The answer of the authentication gate to a request without a principal. */
  const NotAuthenticatedResponse: Response := Response(Unauthorized401, FrameworkDetail(NotAuthenticated))

  /** The envelope status of a response, when it has an envelope. */
  predicate IsSuccess(r: Response) {
    r.body.Enveloped? && r.body.env.status == Success
  }

  /** Every article view a response carries. */
  function Exposed(r: Response): seq<ArticleView> {
    match r.body
    case Enveloped(env) =>
      (match env.data
       case ArticleList(vs) => vs
       case OneArticle(v) => [v]
       case _ => [])
    case ViewList(vs) => vs
    case View(v) => [v]
    case _ => []
  }
}

=== FILE: scenarios.dfy ===
/**
 * Properties that span several requests: what one request leaves behind
 * for the next.
 */
module Scenarios {
  import opened Wrappers
  import opened Users
  import opened Store
  import opened ArticleSerializer
  import opened Responses
  import opened Fields
  import UserSerializer
  import ArticleViews
  import AuthViews

  /**
   * Round trip: the article an author creates is the one the same author
   * reads back from the detail endpoint, field for field.
   */
  lemma CreateThenRetrieve(db: Db, u: User, input: ArticleInput)
    requires Valid(db) && Principal(db, u) && u.role == Author
    requires Acceptable(Writable(input), false)
    ensures var r := ArticleViews.Create(db, Some(u), input);
            && r.resp.body.Enveloped? && r.resp.body.env.data.OneArticle?
            && ArticleViews.Retrieve(r.db, Some(u), db.nextArticleId)
               == Response(Ok200, View(r.resp.body.env.data.article))
  {
  }

  /**
   * Author A creates a private article X. An anonymous list does not
   * include X; another author B can neither change nor delete it; A reads
   * it back.
   */
  lemma PrivateArticleScenario(db: Db, a: User, b: User, input: ArticleInput)
    requires Valid(db) && Principal(db, a) && a.role == Author && b.role == Author && b.id != a.id
    requires Acceptable(Writable(input), false) && input.public == Some(false)
    ensures var r := ArticleViews.Create(db, Some(a), input);
            var x := db.nextArticleId;
            && x in r.db.articles
            && !ArticleViews.InScope(ArticleViews.ListScope(None), r.db.articles[x])
            && ArticleViews.Update(r.db, Some(b), x, input).db == r.db
            && !IsSuccess(ArticleViews.Update(r.db, Some(b), x, input).resp)
            && ArticleViews.Delete(r.db, Some(b), x).db == r.db
            && ArticleViews.Retrieve(r.db, Some(a), x).code == Ok200
  {
  }

  /**
   * After a successful update the owner reads back the patched article:
   * the supplied fields, and everything else as it was, except the
   * refreshed `updated_at`.
   */
  lemma UpdateThenRetrieve(db: Db, u: User, id: nat, input: ArticleInput)
    requires Valid(db)
    requires ArticleViews.Owns(db, Some(u), id) && Acceptable(Writable(input), true)
    ensures var r := ArticleViews.Update(db, Some(u), id, input);
            var v := ArticleViews.Retrieve(r.db, Some(u), id);
            && v.code == Ok200
            && FromView(v.body.view, u.id)
               == ApplyPatch(db.articles[id], Writable(input)).(updatedAt := v.body.view.updatedAt)
            && v.body.view.createdAt == db.articles[id].createdAt
  {
  }

  /**
   * Deleting an article is final: afterwards the owner can no longer read
   * it, and deleting it again changes nothing.
   */
  lemma DeleteThenRetrieve(db: Db, u: User, id: nat)
    requires Valid(db) && ArticleViews.Owns(db, Some(u), id)
    ensures var r := ArticleViews.Delete(db, Some(u), id);
            && id !in r.db.articles
            && Exposed(ArticleViews.Retrieve(r.db, Some(u), id)) == []
            && ArticleViews.Delete(r.db, Some(u), id).db == r.db
            && !IsSuccess(ArticleViews.Delete(r.db, Some(u), id).resp)
  {
  }

  /**
   * A registration that was accepted is refused when sent again: the field
   * step reports the email as not unique, and that is its only error, since
   * every other field check ignores the stored accounts.
   */
  lemma RegisterAgainRefused(db: Db, d: UserSerializer.Registration, isAlpha: char -> bool,
                             isEmail: string -> bool, hasher: string -> string)
    requires Valid(db)
    requires UserSerializer.FieldsPass(d, db.users, isEmail) && UserSerializer.Validate(d, db.users, isAlpha).Ok?
    ensures var first := AuthViews.Register(db, d, isAlpha, isEmail, hasher);
            && IsSuccess(first.resp)
            && AuthViews.Register(first.db, d, isAlpha, isEmail, hasher)
               == Reply(first.db, FailResponse(BadRequest400, ErrorMap([FieldError(EmailField, NotUnique)])))
  {
    var first := AuthViews.Register(db, d, isAlpha, isEmail, hasher);
    assert EmailTaken(first.db.users, d.email.value) by {
      assert first.db.users[db.nextUserId].email == d.email.value;
    }
    assert UserSerializer.AccountFieldOk(d, EmailField, db.users, isEmail);
    assert UserSerializer.RegistrationErrors(d, first.db.users, isEmail) == [FieldError(EmailField, NotUnique)] by {
      assert UserSerializer.AccountCheck(d, FirstNameField, first.db.users, isEmail) == [];
      assert UserSerializer.AccountCheck(d, PasswordField, first.db.users, isEmail) == [];
      assert UserSerializer.AccountCheck(d, ConfirmPasswordField, first.db.users, isEmail) == [];
      assert UserSerializer.AccountCheck(d, EmailField, first.db.users, isEmail) == [FieldError(EmailField, NotUnique)];
    }
  }

  /**
   * Registering "A", "a@b.com" and password "abc12345" succeeds with 201
   * and the email; registering the same email again is refused with the
   * uniqueness error on `email`.
   */
  lemma RegisterTwice(db: Db, isAlpha: char -> bool, isEmail: string -> bool, hasher: string -> string)
    requires Valid(db) && !EmailTaken(db.users, "a@b.com") && isAlpha('a') && isEmail("a@b.com")
    ensures var d := UserSerializer.Registration(Some("A"), Some("a@b.com"), Some("abc12345"), Some("abc12345"));
            var first := AuthViews.Register(db, d, isAlpha, isEmail, hasher);
            var second := AuthViews.Register(first.db, d, isAlpha, isEmail, hasher);
            && first.resp == SuccessResponse(Created201, Registered(RegistrationOk, "a@b.com"))
            && second == Reply(first.db, FailResponse(BadRequest400, ErrorMap([FieldError(EmailField, NotUnique)])))
  {
    var d := UserSerializer.Registration(Some("A"), Some("a@b.com"), Some("abc12345"), Some("abc12345"));
    assert UserSerializer.HasLetter("abc12345", isAlpha) by {
      assert "abc12345"[0] == 'a';
    }
    assert '@' in "a@b.com" by {
      assert "a@b.com"[1] == '@';
    }
    forall k | 0 <= k < UserSerializer.CheckCount
      ensures UserSerializer.Condition(k, d, db.users, isAlpha)
    {
    }
    assert UserSerializer.FieldsPass(d, db.users, isEmail);
    RegisterAgainRefused(db, d, isAlpha, isEmail, hasher);
  }
}

=== FILE: store.dfy ===
/**
 * The persistent state: the user directory and the article table of
 * `my_app/models/article.py`, with the constraints the program keeps
 * (unique email, the author foreign key with its cascade, the title bound)
 * and the timestamps it maintains. Time is an abstract counter that ticks
 * once per article insert or save.
 */
module Store {
  import opened Wrappers
  import opened Users

  /** `max_length` of the title column. */
  const MaxTitleLength: nat := 255

  /** A stored article; its primary key is its key in `Db.articles`, `author` is a user's key. */
  datatype Article = Article(
    title: string,
    content: string,
    public: bool,
    author: nat,
    createdAt: nat,
    updatedAt: nat)

  /** Both tables, the clock, and the next primary key of each table. */
  datatype Db = Db(
    users: map<nat, User>,
    articles: map<nat, Article>,
    clock: nat,
    nextUserId: nat,
    nextArticleId: nat)

  /** Every account sits under its own id, below the next id to hand out. */
  predicate UsersKeyed(db: Db) {
    forall k :: k in db.users ==> db.users[k].id == k && k < db.nextUserId
  }

  /** One row of the article table respects the column constraints. */
  predicate ArticleFits(db: Db, a: Article) {
    && a.author in db.users
    && |a.title| <= MaxTitleLength
    && a.createdAt <= a.updatedAt <= db.clock
  }

  /** Every article row fits and sits below the next id to hand out. */
  predicate ArticlesFit(db: Db) {
    forall k :: k in db.articles ==> k < db.nextArticleId && ArticleFits(db, db.articles[k])
  }

  /** The invariant the database keeps between requests. */
  predicate Valid(db: Db) {
    UsersKeyed(db) && EmailsUnique(db.users) && ArticlesFit(db)
  }

  /** `u` is the account as stored: what authentication hands a view. */
  predicate Principal(db: Db, u: User) {
    u.id in db.users && db.users[u.id] == u
  }

  /** The state of a fresh database. */
  function Empty(): (db: Db)
    ensures Valid(db)
    ensures db.users == map[] && db.articles == map[]
  {
    Db(map[], map[], 0, 0, 0)
  }

  /** A database after a write, with the row the write produced. */
  datatype Saved<T> = Saved(db: Db, row: T)

  /**
   * Inserts a new account under the next user id; the unique constraint on
   * `email` refuses an email already present (an integrity error).
   */
  function SaveUser(db: Db, u: User): (r: Option<Saved<User>>)
    requires Valid(db)
    ensures r.None? <==> EmailTaken(db.users, u.email)
    ensures r.Some? ==> db.nextUserId !in db.users
    ensures r.Some? ==> r.value.row == u.(id := db.nextUserId)
    ensures r.Some? ==> r.value.db.users == db.users[db.nextUserId := r.value.row]
    ensures r.Some? ==> r.value.db.articles == db.articles
    ensures r.Some? ==> Valid(r.value.db)
  {
    if EmailTaken(db.users, u.email) then None
    else
      var v := u.(id := db.nextUserId);
      Some(Saved(db.(users := db.users[v.id := v], nextUserId := db.nextUserId + 1), v))
  }

  /**
   * Inserts a new article under the next article id. Both timestamps are
   * set to the time of the insert, which is later than every earlier write.
   */
  function InsertArticle(db: Db, title: string, content: string, public: bool, author: nat): (r: Saved<nat>)
    requires Valid(db)
    requires author in db.users && |title| <= MaxTitleLength
    ensures r.row == db.nextArticleId && r.row !in db.articles
    ensures r.db.clock > db.clock
    ensures r.db.articles == db.articles[r.row := Article(title, content, public, author, r.db.clock, r.db.clock)]
    ensures r.db.users == db.users
    ensures Valid(r.db)
  {
    var now := db.clock + 1;
    var id := db.nextArticleId;
    Saved(db.(articles := db.articles[id := Article(title, content, public, author, now, now)],
              clock := now, nextArticleId := id + 1), id)
  }

  /**
   * Writes an existing article back. `updated_at` is refreshed to the time
   * of this write; `created_at` must be the stored one, so it never moves.
   */
  function SaveArticle(db: Db, id: nat, a: Article): (r: Db)
    requires Valid(db) && id in db.articles
    requires a.author in db.users && |a.title| <= MaxTitleLength
    requires a.createdAt == db.articles[id].createdAt
    ensures r.articles.Keys == db.articles.Keys && r.users == db.users
    ensures r.articles[id] == a.(updatedAt := r.clock)
    ensures r.articles[id].updatedAt > db.articles[id].updatedAt
    ensures forall k :: k in db.articles && k != id ==> r.articles[k] == db.articles[k]
    ensures Valid(r)
  {
    var now := db.clock + 1;
    db.(articles := db.articles[id := a.(updatedAt := now)], clock := now)
  }

  /** Deletes one article row. */
  function RemoveArticle(db: Db, id: nat): (r: Db)
    requires Valid(db)
    ensures r.articles.Keys == db.articles.Keys - {id} && r.users == db.users
    ensures forall k :: k in r.articles ==> r.articles[k] == db.articles[k]
    ensures Valid(r)
  {
    db.(articles := map k | k in db.articles && k != id :: db.articles[k])
  }

  /**
   * Deletes an account. The author foreign key cascades: every article of
   * that account goes with it, and no other article does.
   */
  function DeleteUser(db: Db, uid: nat): (r: Db)
    requires Valid(db)
    ensures r.users.Keys == db.users.Keys - {uid}
    ensures forall k :: k in r.users ==> r.users[k] == db.users[k]
    ensures forall k :: k in r.articles <==> k in db.articles && db.articles[k].author != uid
    ensures forall k :: k in r.articles ==> r.articles[k] == db.articles[k]
    ensures Valid(r)
  {
    db.(users := map k | k in db.users && k != uid :: db.users[k],
        articles := map k | k in db.articles && db.articles[k].author != uid :: db.articles[k])
  }

  /**
   * The cascade is what keeps the database valid: dropping an account that
   * still authors an article, without its articles, breaks the foreign key.
   */
  lemma CascadeNeeded(db: Db, uid: nat, k: nat)
    requires Valid(db)
    requires k in db.articles && db.articles[k].author == uid
    ensures !Valid(db.(users := map j | j in db.users && j != uid :: db.users[j]))
  {
  }
}

=== FILE: user_manager.dfy ===
/**
 * `UserManager` of `my_app/models/users.py`: creating an ordinary account
 * and a superuser. Email normalisation and password hashing are library
 * code, so they are parameters (`normalize`, `hasher`).
 */
module UserManager {
  import opened Wrappers
  import opened Users
  import opened Store

  /** The keyword arguments a caller may pass; each may be left out. */
  datatype Extra = Extra(
    firstName: Option<string>,
    role: Option<Role>,
    isStaff: Option<bool>,
    isSuperuser: Option<bool>)

  /** Why the manager raised. */
  datatype ManagerError =
    | EmailMissing          // the email is missing or empty
    | StaffFlagRequired     // a superuser with is_staff not True
    | SuperuserFlagRequired // a superuser with is_superuser not True
    | EmailInUse            // the unique constraint refused the email

  /** The new database and account, or the error raised; on an error nothing is stored. */
  datatype Outcome = Made(db: Db, user: User) | Raised(error: ManagerError)

  /** The account the manager builds before saving it; column defaults fill what `extra` leaves out. */
  function Build(email: string, password: Option<string>, extra: Extra, hasher: string -> string): User {
    User(0, email, extra.firstName.GetOr(""), CredentialFor(password, hasher),
         extra.role.GetOr(DefaultRole), extra.isStaff.GetOr(false), extra.isSuperuser.GetOr(false))
  }

  /**
   * `create_user`. A missing or empty email raises. Otherwise exactly one
   * account is added, with the normalised email, the given fields (the
   * column defaults for the others: no first name, role follower, no flags)
   * and the hashed password; the unique constraint refuses a normalised
   * email already stored.
   */
  function CreateUser(db: Db, email: Option<string>, password: Option<string>, extra: Extra,
                      normalize: string -> string, hasher: string -> string): (r: Outcome)
    requires Valid(db)
    ensures (email.None? || email.value == "") <==> r == Raised(EmailMissing)
    ensures r.Raised? && email.Some? && email.value != "" ==>
              r.error == EmailInUse && EmailTaken(db.users, normalize(email.value))
    ensures r.Made? ==> email.Some? && r.user.email == normalize(email.value)
    ensures r.Made? ==> r.user.id !in db.users && r.db.users == db.users[r.user.id := r.user]
    ensures r.Made? ==> r.db.articles == db.articles && Valid(r.db)
    ensures r.Made? ==> r.user.firstName == extra.firstName.GetOr("")
    ensures r.Made? ==> r.user.role == (if extra.role.Some? then extra.role.value else Follower)
    ensures r.Made? ==> r.user.isStaff == (extra.isStaff == Some(true))
    ensures r.Made? ==> r.user.isSuperuser == (extra.isSuperuser == Some(true))
    ensures r.Made? ==> r.user.credential == CredentialFor(password, hasher)
  {
    if email.None? || email.value == "" then Raised(EmailMissing)
    else
      match SaveUser(db, Build(normalize(email.value), password, extra, hasher))
      case None => Raised(EmailInUse)
      case Some(saved) => Made(saved.db, saved.row)
  }

  /** `extra_fields.setdefault`: the superuser defaults, kept where the caller gave a value. */
  function SuperuserDefaults(extra: Extra): (e: Extra)
    ensures e.isStaff.Some? && e.isSuperuser.Some? && e.role.Some?
    ensures extra.isStaff.None? ==> e.isStaff == Some(true)
    ensures extra.isSuperuser.None? ==> e.isSuperuser == Some(true)
    ensures extra.role.None? ==> e.role == Some(Admin)
    ensures extra.isStaff.Some? ==> e.isStaff == extra.isStaff
    ensures extra.isSuperuser.Some? ==> e.isSuperuser == extra.isSuperuser
    ensures extra.role.Some? ==> e.role == extra.role
    ensures e.firstName == extra.firstName
    ensures e.isStaff == Some(true) <==> extra.isStaff != Some(false)
    ensures e.isSuperuser == Some(true) <==> extra.isSuperuser != Some(false)
  {
    Extra(extra.firstName,
          Some(extra.role.GetOr(Admin)),
          Some(extra.isStaff.None? || extra.isStaff.value),
          Some(extra.isSuperuser.None? || extra.isSuperuser.value))
  }

  /**
   * `create_superuser`. After the defaults, `is_staff` is checked before
   * `is_superuser`; an explicit false for either raises and nothing is
   * created. Otherwise it is `create_user` with the defaulted fields, so a
   * created superuser always has both flags set.
   */
  function CreateSuperuser(db: Db, email: Option<string>, password: Option<string>, extra: Extra,
                           normalize: string -> string, hasher: string -> string): (r: Outcome)
    requires Valid(db)
    ensures extra.isStaff == Some(false) ==> r == Raised(StaffFlagRequired)
    ensures extra.isStaff != Some(false) && extra.isSuperuser == Some(false) ==> r == Raised(SuperuserFlagRequired)
    ensures r.Made? ==> r.user.isStaff && r.user.isSuperuser
    ensures r.Made? && extra.role.None? ==> r.user.role == Admin
    ensures r.Made? ==> r.db.users == db.users[r.user.id := r.user] && Valid(r.db)
    ensures extra.isStaff != Some(false) && extra.isSuperuser != Some(false) ==>
              r == CreateUser(db, email, password, SuperuserDefaults(extra), normalize, hasher)
  {
    var e := SuperuserDefaults(extra);
    if e.isStaff != Some(true) then Raised(StaffFlagRequired)
    else if e.isSuperuser != Some(true) then Raised(SuperuserFlagRequired)
    else CreateUser(db, email, password, e, normalize, hasher)
  }

  /**
   * Every account the manager creates satisfies the user invariants: its
   * role is one of the three, and the directory keeps unique emails.
   */
  lemma CreatedRoleDefaults(db: Db, email: Option<string>, password: Option<string>,
                            normalize: string -> string, hasher: string -> string)
    requires Valid(db)
    ensures var r := CreateUser(db, email, password, Extra(None, None, None, None), normalize, hasher);
            r.Made? ==> r.user.role == Follower && !r.user.isStaff && !r.user.isSuperuser && EmailsUnique(r.db.users)
    ensures var r := CreateSuperuser(db, email, password, Extra(None, None, None, None), normalize, hasher);
            r.Made? ==> r.user.role == Admin && r.user.isStaff && r.user.isSuperuser && EmailsUnique(r.db.users)
  {
  }

  /**
   * Once `create_user` has stored an account, creating another account
   * whose email normalises to the same address fails on the unique
   * constraint and stores nothing.
   */
  lemma CreateUserTwice(db: Db, email: Option<string>, password: Option<string>, extra: Extra,
                        password': Option<string>, extra': Extra,
                        normalize: string -> string, hasher: string -> string)
    requires Valid(db)
    requires CreateUser(db, email, password, extra, normalize, hasher).Made?
    ensures var r := CreateUser(db, email, password, extra, normalize, hasher);
            CreateUser(r.db, email, password', extra', normalize, hasher) == Raised(EmailInUse)
  {
    var r := CreateUser(db, email, password, extra, normalize, hasher);
    assert r.db.users[r.user.id].email == normalize(email.value);
  }
}

=== FILE: user_serializer.dfy ===
/**
 * `my_app/serializers/userSR.py`: the two steps a registration goes
 * through, and the account a valid registration creates. First the field
 * step the framework derives from the declared fields and the account
 * columns; only when every field passes, the serializer's own ordered
 * checks. Whether a character is a letter is a parameter (`isAlpha`),
 * standing for Python's `str.isalpha`; whether a string is an email
 * address is one too (`isEmail`), standing for Django's `EmailValidator`;
 * hashing is a parameter as well (`hasher`).
 */
module UserSerializer {
  import opened Wrappers
  import opened Users
  import opened Store
  import opened Responses
  import opened Fields

  /** A registration request; any field may be missing. */
  datatype Registration = Registration(
    firstName: Option<string>,
    email: Option<string>,
    password: Option<string>,
    confirmPassword: Option<string>)

  /** Python truthiness of an optional string: present and not empty. */
  predicate Given(s: Option<string>) {
    s.Some? && s.value != ""
  }

  /** The text of an optional string, empty when missing. */
  function Text(s: Option<string>): string {
    s.GetOr("")
  }

  /** Some character of `s` is a letter. */
  predicate HasLetter(s: string, isAlpha: char -> bool) {
    exists i :: 0 <= i < |s| && isAlpha(s[i])
  }

  /** `max_length` of the `first_name` column. */
  const FirstNameMaxLength: nat := 30

  /** `max_length` Django gives an `EmailField` column by default. */
  const EmailMaxLength: nat := 254

  /** `max_length` of the password column Django's account model inherits. */
  const PasswordMaxLength: nat := 128

  /** The four declared fields of the registration serializer. */
  predicate IsAccountField(f: Field) {
    f.FirstNameField? || f.EmailField? || f.PasswordField? || f.ConfirmPasswordField?
  }

  /** What a registration sent for field `f`. */
  function Value(d: Registration, f: Field): Option<string> {
    match f
    case FirstNameField => d.firstName
    case EmailField => d.email
    case PasswordField => d.password
    case ConfirmPasswordField => d.confirmPassword
    case _ => None
  }

  /**
   * The validators a present, non-blank value of field `f` must pass: the
   * column bounds, the email format, and the unique constraint on `email`.
   * `confirm_password` is a plain declared field with no bound.
   */
  predicate ValueOk(f: Field, s: string, users: map<nat, User>, isEmail: string -> bool) {
    match f
    case FirstNameField => |s| <= FirstNameMaxLength
    case EmailField => !EmailTaken(users, s) && |s| <= EmailMaxLength && isEmail(s)
    case PasswordField => |s| <= PasswordMaxLength
    case _ => true
  }

  /** Field `f` of a registration passes the field step: every field is required and may not be blank. */
  predicate AccountFieldOk(d: Registration, f: Field, users: map<nat, User>, isEmail: string -> bool) {
    Given(Value(d, f)) && ValueOk(f, Value(d, f).value, users, isEmail)
  }

  /** Every field of a registration passes the field step. */
  predicate FieldsPass(d: Registration, users: map<nat, User>, isEmail: string -> bool) {
    && AccountFieldOk(d, FirstNameField, users, isEmail)
    && AccountFieldOk(d, EmailField, users, isEmail)
    && AccountFieldOk(d, PasswordField, users, isEmail)
    && AccountFieldOk(d, ConfirmPasswordField, users, isEmail)
  }

  /**
   * The validators' errors on a present, non-blank value. All validators of
   * a field run, so an email can be refused as taken, too long and
   * malformed at once.
   */
  function ValueErrors(f: Field, s: string, users: map<nat, User>, isEmail: string -> bool): (errs: seq<FieldError>)
    ensures errs == [] <==> ValueOk(f, s, users, isEmail)
    ensures forall e :: e in errs ==> e.field == f
    ensures f.EmailField? && EmailTaken(users, s) ==> FieldError(f, NotUnique) in errs
  {
    match f
    case FirstNameField => if |s| > FirstNameMaxLength then [FieldError(f, TooLong)] else []
    case EmailField =>
      (if EmailTaken(users, s) then [FieldError(f, NotUnique)] else [])
      + (if |s| > EmailMaxLength then [FieldError(f, TooLong)] else [])
      + (if isEmail(s) then [] else [FieldError(f, Invalid)])
    case PasswordField => if |s| > PasswordMaxLength then [FieldError(f, TooLong)] else []
    case _ => []
  }

  /**
   * The errors of one field: `Required` when it was not sent, `Blank` when
   * it is empty (and then no validator runs), otherwise the validators'.
   */
  function AccountCheck(d: Registration, f: Field, users: map<nat, User>, isEmail: string -> bool): (errs: seq<FieldError>)
    ensures errs == [] <==> AccountFieldOk(d, f, users, isEmail)
    ensures forall e :: e in errs ==> e.field == f
  {
    var v := Value(d, f);
    if v.None? then [FieldError(f, Required)]
    else if v.value == "" then [FieldError(f, Blank)]
    else ValueErrors(f, v.value, users, isEmail)
  }

  /**
   * The field step of `is_valid`, in field order. The list is empty exactly
   * when every field passes and it names exactly the fields that fail. A
   * field that was not sent is reported as required, and an email already
   * stored is reported as not unique.
   */
  function RegistrationErrors(d: Registration, users: map<nat, User>, isEmail: string -> bool): (errs: seq<FieldError>)
    ensures errs == [] <==> FieldsPass(d, users, isEmail)
    ensures forall f :: f in ErrorFields(errs) <==> IsAccountField(f) && !AccountFieldOk(d, f, users, isEmail)
    ensures forall f :: IsAccountField(f) && Value(d, f).None? ==> FieldError(f, Required) in errs
    ensures Given(d.email) && EmailTaken(users, d.email.value) ==> FieldError(EmailField, NotUnique) in errs
  {
    var n := AccountCheck(d, FirstNameField, users, isEmail);
    var e := AccountCheck(d, EmailField, users, isEmail);
    var p := AccountCheck(d, PasswordField, users, isEmail);
    var c := AccountCheck(d, ConfirmPasswordField, users, isEmail);
    assert ErrorFields(n + e + p + c) == ErrorFields(n) + ErrorFields(e) + ErrorFields(p) + ErrorFields(c);
    n + e + p + c
  }

  /** The number of checks in the chain. */
  const CheckCount: nat := 6

  /**
   * Condition `k` of the chain, in the order the validator tests them:
   * all three fields given, confirmation equal, an '@' in the email, at
   * least 8 characters, a letter, and an email nobody has registered.
   */
  predicate Condition(k: nat, d: Registration, users: map<nat, User>, isAlpha: char -> bool)
    requires k < CheckCount
  {
    if k == 0 then Given(d.email) && Given(d.password) && Given(d.confirmPassword)
    else if k == 1 then d.password == d.confirmPassword
    else if k == 2 then '@' in Text(d.email)
    else if k == 3 then |Text(d.password)| >= 8
    else if k == 4 then HasLetter(Text(d.password), isAlpha)
    else !EmailTaken(users, Text(d.email))
  }

  /** The message a failure of condition `k` reports. */
  function CheckMessage(k: nat): Msg
    requires k < CheckCount
  {
    [FieldsRequired, PasswordsDiffer, BadEmailFormat, PasswordTooShort, PasswordNeedsLetter, EmailAlreadyRegistered][k]
  }

  /** Condition `k` is the first one of the chain that fails. */
  predicate FirstFailing(k: nat, d: Registration, users: map<nat, User>, isAlpha: char -> bool)
    requires k < CheckCount
  {
    !Condition(k, d, users, isAlpha) && forall j :: 0 <= j < k ==> Condition(j, d, users, isAlpha)
  }

  /**
   * `UserSerializer.validate`. Accepts exactly when all six conditions hold
   * and then hands the data back unchanged.
   */
  function Validate(d: Registration, users: map<nat, User>, isAlpha: char -> bool): (r: Result<Registration, Msg>)
    ensures r.Ok? <==> forall k :: 0 <= k < CheckCount ==> Condition(k, d, users, isAlpha)
    ensures r.Ok? ==> r.value == d
  {
    if !Given(d.email) || !Given(d.password) || !Given(d.confirmPassword) then
      assert !Condition(0, d, users, isAlpha);
      Err(FieldsRequired)
    else if d.password.value != d.confirmPassword.value then
      assert !Condition(1, d, users, isAlpha);
      Err(PasswordsDiffer)
    else if '@' !in d.email.value then
      assert !Condition(2, d, users, isAlpha);
      Err(BadEmailFormat)
    else if |d.password.value| < 8 then
      assert !Condition(3, d, users, isAlpha);
      Err(PasswordTooShort)
    else if !HasLetter(d.password.value, isAlpha) then
      assert !Condition(4, d, users, isAlpha);
      Err(PasswordNeedsLetter)
    else if EmailTaken(users, d.email.value) then
      assert !Condition(5, d, users, isAlpha);
      Err(EmailAlreadyRegistered)
    else
      assert Condition(5, d, users, isAlpha);
      Ok(d)
  }

  /**
   * The checks run in order: a refusal reports the message of the first
   * condition that fails, and a refusal happens exactly when one fails.
   */
  lemma ValidateReportsFirstFailure(d: Registration, users: map<nat, User>, isAlpha: char -> bool)
    ensures Validate(d, users, isAlpha).Err? <==> exists k :: 0 <= k < CheckCount && FirstFailing(k, d, users, isAlpha)
    ensures forall k :: 0 <= k < CheckCount && FirstFailing(k, d, users, isAlpha) ==>
              Validate(d, users, isAlpha) == Err(CheckMessage(k))
  {
    var r := Validate(d, users, isAlpha);
    var k: nat := if !Condition(0, d, users, isAlpha) then 0
      else if !Condition(1, d, users, isAlpha) then 1
      else if !Condition(2, d, users, isAlpha) then 2
      else if !Condition(3, d, users, isAlpha) then 3
      else if !Condition(4, d, users, isAlpha) then 4
      else 5;
    if r.Err? {
      assert FirstFailing(k, d, users, isAlpha);
      assert r == Err(CheckMessage(k));
    }
    forall k' | 0 <= k' < CheckCount && FirstFailing(k', d, users, isAlpha)
      ensures r == Err(CheckMessage(k'))
    {
      assert FirstFailing(k, d, users, isAlpha);
    }
  }

  /** Every string the email validator accepts contains an '@', as Django's does. */
  ghost predicate EmailsHaveAt(isEmail: string -> bool) {
    forall s: string :: isEmail(s) ==> '@' in s
  }

  /**
   * Behind the field step most of `validate` is dead: the fields are all
   * given, the email is not stored yet, and with a validator that demands
   * an '@' the format check passes too. What it can still refuse is a
   * confirmation that differs, a short password or one without a letter.
   */
  lemma ValidatorShadowed(d: Registration, users: map<nat, User>, isAlpha: char -> bool, isEmail: string -> bool)
    requires FieldsPass(d, users, isEmail)
    ensures Condition(0, d, users, isAlpha) && Condition(5, d, users, isAlpha)
    ensures EmailsHaveAt(isEmail) ==> Condition(2, d, users, isAlpha)
    ensures Validate(d, users, isAlpha).Err? ==>
              Validate(d, users, isAlpha).error in {PasswordsDiffer, BadEmailFormat, PasswordTooShort, PasswordNeedsLetter}
    ensures EmailsHaveAt(isEmail) && Validate(d, users, isAlpha).Err? ==>
              Validate(d, users, isAlpha).error in {PasswordsDiffer, PasswordTooShort, PasswordNeedsLetter}
  {
    assert AccountFieldOk(d, EmailField, users, isEmail);
  }

  /**
   * `UserSerializer.create`: the account built from validated data. It has
   * the given email, the given first name or '' when none was sent, the
   * default role, no staff or superuser flag, and only the hashed password.
   */
  function NewUser(d: Registration, hasher: string -> string): (u: User)
    requires d.email.Some? && d.password.Some?
    ensures u.email == d.email.value
    ensures u.firstName == (if d.firstName.Some? then d.firstName.value else "")
    ensures u.credential == Hashed(hasher(d.password.value))
    ensures u.role == DefaultRole && !u.isStaff && !u.isSuperuser
  {
    User(0, d.email.value, d.firstName.GetOr(""), CredentialFor(d.password, hasher), DefaultRole, false, false)
  }

  /**
   * Saves the account of a validated registration: exactly one account is
   * added, under a fresh key, unless the email is already stored, which the
   * unique constraint refuses.
   */
  function Create(db: Db, d: Registration, hasher: string -> string): (r: Option<Saved<User>>)
    requires Valid(db)
    requires d.email.Some? && d.password.Some?
    ensures r.Some? <==> !EmailTaken(db.users, d.email.value)
    ensures r.Some? ==> r.value.row.id !in db.users
    ensures r.Some? ==> r.value.db.users == db.users[r.value.row.id := r.value.row]
    ensures r.Some? ==> r.value.row.email == d.email.value && r.value.row.role == Follower
    ensures r.Some? ==> r.value.db.articles == db.articles && Valid(r.value.db)
  {
    SaveUser(db, NewUser(d, hasher))
  }
}

=== FILE: users.dfy ===
/**
 * The account record of `my_app/models/users.py`: the closed role set with
 * its string encoding, and the fields a user carries.
 */
module Users {
  import opened Wrappers

  /** The three roles of `User.USER_ROLES`; every account holds exactly one. */
  datatype Role = Follower | Author | Admin

  /** The role a new account gets when none is given. */
  const DefaultRole: Role := Follower

  /** The stored `user_role` string of each role. */
  function RoleName(r: Role): string {
    match r
    case Follower => "follower"
    case Author => "author"
    case Admin => "admin"
  }

  /** Reads a stored `user_role` string back; strings outside the choices are refused. */
  function ParseRole(s: string): (r: Option<Role>)
    ensures r.Some? <==> s in {"follower", "author", "admin"}
    ensures r.Some? ==> RoleName(r.value) == s
  {
    if s == "follower" then Some(Follower)
    else if s == "author" then Some(Author)
    else if s == "admin" then Some(Admin)
    else None
  }

  /** Encoding a role and reading it back gives the same role, and distinct roles have distinct names. */
  lemma RoleNameRoundTrip(r: Role, r': Role)
    ensures ParseRole(RoleName(r)) == Some(r)
    ensures RoleName(r) == RoleName(r') ==> r == r'
  {
  }

  /** The views' string test `user_role == 'author'` holds exactly for the `Author` role. */
  lemma AuthorTestIsRoleTest(r: Role)
    ensures RoleName(r) == "author" <==> r == Author
  {
  }

  /**
   * What the directory keeps in place of a password: the output of the
   * password hasher, or the unusable marker set when no password is given.
   * There is no constructor that holds a plaintext password.
   */
  datatype Credential = Unusable | Hashed(digest: string)

  /** A stored account; `id` is its primary key, and identity equality compares `id`. */
  datatype User = User(
    id: nat,
    email: string,
    firstName: string,
    credential: Credential,
    role: Role,
    isStaff: bool,
    isSuperuser: bool)

  /** The credential `set_password` stores for an optional raw password. */
  function CredentialFor(password: Option<string>, hasher: string -> string): (c: Credential)
    ensures password.None? <==> c == Unusable
    ensures password.Some? ==> c == Hashed(hasher(password.value))
  {
    match password
    case None => Unusable
    case Some(p) => Hashed(hasher(p))
  }

  /** The string form of a user: its email. */
  function Display(u: User): string {
    u.email
  }

  /** No two accounts of a directory share an email. */
  predicate EmailsUnique(users: map<nat, User>) {
    forall k, k' :: k in users && k' in users && users[k].email == users[k'].email ==> k == k'
  }

  /** True when some account of the directory already has this email. */
  predicate EmailTaken(users: map<nat, User>, email: string) {
    exists k :: k in users && users[k].email == email
  }

  /**
   * In a directory with unique emails the string form identifies the
   * account: two accounts that display alike are the same account.
   */
  lemma DisplayIdentifies(users: map<nat, User>, k: nat, k': nat)
    requires EmailsUnique(users)
    requires k in users && k' in users
    ensures Display(users[k]) == Display(users[k']) <==> k == k'
  {
  }
}

=== FILE: wrappers.dfy ===
/** Optional values and results shared by the whole model. */
module Wrappers {

  /** A value that may be absent: a missing request field, a lookup that found nothing. */
  datatype Option<+T> = None | Some(value: T) {

    /** The wrapped value, or `default` when there is none (Python's `dict.get(k, default)`). */
    function GetOr(default: T): T {
      match this
      case Some(v) => v
      case None => default
    }
  }

  /** The outcome of a check that either passes a value through or reports an error. */
  datatype Result<+R, +E> = Ok(value: R) | Err(error: E)
}
